=== FILE: README.md ===
# Single-flight and multimap: a Dafny model

This project models three pieces of the Go `golang.org/x/sync` fork and proves properties about them.

- **`SingleFlight`** (`singleflight.dfy`, properties in `singleflight_props.dfy`) models the `Group` of `singleflight/singleflight.go`.
  - A `Group` holds:
    - the table of in-flight calls (`m`);
    - every `call` ever created, addressed by index, with its `forgotten` flag, `refCount` and registered channels;
    - every result channel ever made, as a one-slot mailbox.
  - Each critical section is a pure transition:
    - `DoChan`: attach to the call in flight for the key, or create one;
    - `Complete`: what `doCall` does under the mutex once `fn` has returned;
    - `Forget`;
    - `Receive`: the `<-ch` in `Do`;
    - `refShared.Decrement`.
  - `Valid` is the invariant the mutex protects, and every transition is proved to keep it.
  - On top of that, the project proves:
    - duplicate suppression;
    - one identical result per caller;
    - the behaviour after `Forget` that `TestForget` exercises;
    - the arithmetic of the shared counter.
- **`MultiMap`** (`multimap.dfy`, properties in `multimap_props.dfy`) models `syncmultimap/multimap.go`.
  - The `sync.Map` of `MultiMapSet`s becomes `map<string, seq<V>>`.
  - A range callback becomes a function of the (key, value) pair it is given; ranging returns the list of visits it makes.
  - `MultiMapSet.Remove` and `MultiMapSet.Range` also appear as methods with the loops the source uses. Each is proved equal to its functional definition.
- **`SimpleFlight`** (`simple.dfy`, properties in `simple_props.dfy`) models the lock-based `SimpleSingleFlight.Do` of `singleflight/simple.go`.
  - It covers the per-key leader-lock registry and the way a leader encodes what `fn` did into a `result` record. That record is a return, a recovered panic wrapped in a panicError, or errGoexit.
  - It also covers how every caller decodes the record again in the deferred block.
  - The lock is an oracle that answers "you lead" or "here is your batch's record".

`Options.Option` is the shared optional type. It stands for a nil interface value and for a receive that would block.

## Model

| member | source | states |
|---|---|---|
| SingleFlight.EmptyGroupValid | singleflight/singleflight.go:34-37 | the zero `Group` (no table, no calls) satisfies the invariant |
| SingleFlight.DoChan | singleflight/singleflight.go:75-95 | with a call in flight for the key, the caller's fresh channel is appended to that call's channels and its refCount goes up by one, and nothing is started; otherwise a new running call with refCount 1 and just that channel is created and entered in the table, and it is started; either way exactly one new empty channel exists |
| SingleFlight.Deliver | singleflight/singleflight.go:108-110 | every channel in the call's list receives the result appended once, and every other channel is unchanged |
| SingleFlight.Complete | singleflight/singleflight.go:98-112 | the call becomes finished with fn's (val, err) and keeps its key, forgotten flag, refCount and channels; its key is deleted from the table unless the call was forgotten; all other calls are unchanged |
| SingleFlight.Forget | singleflight/singleflight.go:117-124 | the key is gone from the table afterwards; the call it pointed to, if any, is marked forgotten and otherwise unchanged; no other call or channel changes; an absent key changes nothing |
| SingleFlight.Receive | singleflight/singleflight.go:68-71 | an empty channel blocks (no value, nothing changes); otherwise the caller takes the first message and nothing else changes |
| SingleFlight.Decrement | singleflight/singleflight.go:54-57 | returns the counter of the call the refShared points to, minus one, and stores it; nothing else changes |
| SingleFlight.Shared | singleflight/singleflight.go:59-61 | returns the shared flag the result was built with; ReceivedIsCallResult states that it is true exactly when the call had more than one caller |
| SingleFlightProps.DoChanPreservesValid | singleflight/singleflight.go:75-95 | DoChan keeps the invariant: table entries point at running, unforgotten calls of their key, and conversely every running, unforgotten call is its key's table entry, so each key has at most one live call; refCount equals the number of registered channels while running; each channel is registered exactly once with its owner; mailboxes are empty while running and hold one result after completion until received |
| SingleFlightProps.AttachPreservesValid | singleflight/singleflight.go:81-86 | attaching to an in-flight call keeps the invariant |
| SingleFlightProps.CreatePreservesValid | singleflight/singleflight.go:87-94 | creating a call keeps the invariant |
| SingleFlightProps.CompletePreservesValid | singleflight/singleflight.go:98-112 | doCall's completion keeps the invariant |
| SingleFlightProps.ForgetPreservesValid | singleflight/singleflight.go:117-124 | Forget keeps the invariant |
| SingleFlightProps.ReceivePreservesValid | singleflight/singleflight.go:68-71 | receiving keeps the invariant |
| SingleFlightProps.DecrementPreservesValid | singleflight/singleflight.go:54-57 | decrementing the counter of a finished call keeps the invariant |
| SingleFlightProps.CompleteDeliversOnce | singleflight/singleflight.go:106-110 | every channel registered with the call holds exactly one message, the same Result(val, err, shared) for all, and no other channel changes; shared is true exactly when more than one caller is registered |
| SingleFlightProps.ReceivedIsCallResult | singleflight/singleflight.go:68-71 | whatever a caller receives is the finished value and error of the call it registered with, carries that call's counter, and is marked shared exactly when the call had several callers; a channel yields one message and then blocks for good |
| SingleFlightProps.DoChanMany | singleflight/singleflight.go:75-95 | n callers in a row add exactly n channels |
| SingleFlightProps.DuplicatesSuppressed | singleflight/singleflight_test.go:161-207 | starting with no call for the key, n >= 1 callers start exactly one execution; that call is in the table, is running, has refCount n and holds the n new channels in arrival order |
| SingleFlightProps.DoChanManyPreservesValid | singleflight/singleflight.go:75-95 | any number of DoChan calls keeps the invariant |
| SingleFlightProps.AtMostOneLiveCall | singleflight/singleflight.go:81-89 | in a valid group two running, unforgotten calls with the same key are the same call |
| SingleFlightProps.AllCallersGetOneResult | singleflight/singleflight.go:63-71 | n callers of one key start one execution, and when it returns (val, err) each of their n channels holds exactly that result, marked shared exactly when n > 1 |
| SingleFlightProps.ForgetStartsFreshCall | singleflight/singleflight_test.go:209-276 | after Forget, a new caller starts a fresh call even though the old one is still running; the old call's completion leaves the table pointing at the new call; a third caller attaches to the new call without starting anything and receives the new call's value, marked shared |
| SingleFlightProps.ForgottenCompletionKeepsTable | singleflight/singleflight.go:103-105 | completing a forgotten call leaves the table untouched, and no table entry points to that call |
| SingleFlightProps.CompletionSparesLiveCalls | singleflight/singleflight.go:102-105 | completing a call never deletes the table entry of any other running, unforgotten call, so a completion cannot clobber a newer call for the same key |
| SingleFlightProps.CompletionRetiresOwnKey | singleflight/singleflight.go:103-105 | a running call that was not forgotten is its key's table entry, and completing it removes exactly that key and keeps every other entry |
| SingleFlightProps.DecrementMany | singleflight/singleflight.go:54-57 | repeated Decrements never add or drop calls |
| SingleFlightProps.DecrementCounts | singleflight/singleflight.go:47-57 | all results of a call share one counter: after k decrements through any of them, the counter and the last value returned are refCount - k, and nothing else in the group changes |
| MultiMap.FirstIndex | syncmultimap/multimap.go:34-35 | the position the removal loop stops at: the first index holding the value, or the length when the value is absent |
| MultiMap.SetRemoved | syncmultimap/multimap.go:29-45 | the removal shortens the set by one exactly when the value was held and leaves its length otherwise, and asks for the key to be dropped exactly when the set was already empty |
| MultiMap.SetAdd | syncmultimap/multimap.go:23-27 | the set's old values come first, in order, followed by the new value |
| MultiMap.SetRemovedShape | syncmultimap/multimap.go:29-45 | when the value is present, the first occurrence is cut out, the rest keep their order, and the key is not dropped; when it is absent, the values are unchanged and the key is dropped exactly when the set is empty; in both cases the multiset of values loses one copy of the value |
| MultiMap.SetRemove | syncmultimap/multimap.go:29-45 | the source's early-returning scan computes exactly the removal described by SetRemovedShape |
| MultiMap.RangePrefix | syncmultimap/multimap.go:50-58 | a set's range makes at most one visit per value, and a non-empty set's first visit is its first value with the set's key |
| MultiMap.RangePrefixShape | syncmultimap/multimap.go:50-58 | the visits are a prefix of the values, in order, each paired with the set's key; every visit but the last was accepted; the range stops early only right after a rejection; and it visits every value exactly when the callback accepts them all |
| MultiMap.SetRange | syncmultimap/multimap.go:50-58 | the source's loop makes exactly the visits RangePrefixShape describes |
| MultiMap.Add | syncmultimap/multimap.go:71-84 | the key is present afterwards with its old values (none if it was new) plus the value at the end; no other key changes |
| MultiMap.RemoveAll | syncmultimap/multimap.go:95-97 | the key is absent afterwards and every other key keeps its values |
| MultiMap.ContainsKey | syncmultimap/multimap.go:116-119 | true exactly when the map holds a set for the key; a key it does not hold has no values |
| MultiMap.RangeKey | syncmultimap/multimap.go:99-106 | visits only values of the key, the j-th visit being the key with its j-th value, never more visits than values, and nothing for an absent key |
| MultiMap.RangeAll | syncmultimap/multimap.go:108-114 | every visit is a (key, value) pair with the key enumerated and the value held in that key's set |
| MultiMap.Remove | syncmultimap/multimap.go:86-93 | an absent key changes nothing, and other keys are never touched |
| MultiMap.RemoveCorrected | syncmultimap/multimap.go:41-44 | the corrected Remove: an absent key changes nothing and other keys are never touched |
| MultiMapProps.RemoveMissingIsNoOp | syncmultimap/multimap.go:86-93 | Remove of an absent key, or of a value a non-empty set does not hold, leaves the map unchanged |
| MultiMapProps.EmptyHoldsNothing | syncmultimap/multimap.go:64-69 | a new multimap holds no key: ContainsKey is false, RangeKey visits nothing, and no key holds an empty set |
| MultiMapProps.RemoveCutsFirstOccurrence | syncmultimap/multimap.go:33-38 | Remove of a held value cuts out its first occurrence only; the key stays, the other values keep their order, and the keys are the same |
| MultiMapProps.RemovingLastValueKeepsKey | syncmultimap/multimap.go:29-45 | as written, removing the only value leaves the key present with an empty set |
| MultiMapProps.RemoveFromEmptySetDropsKey | syncmultimap/multimap.go:41-44 | Remove on a key whose set is already empty drops the key, whatever the value |
| MultiMapProps.RemoveDropsKeyIffEmpty | syncmultimap/multimap.go:29-45 | as written, Remove drops a key exactly when its set was already empty |
| MultiMapProps.SetRemoveAppended | syncmultimap/multimap.go:23-38 | removing a value just appended to a set that did not hold it gives back the set |
| MultiMapProps.AddThenRemove | syncmultimap/multimap.go:23-38 | Add then Remove of a value the key did not hold restores the key's values; a key that was absent stays behind, empty |
| MultiMapProps.AsWrittenLeavesEmptySet | syncmultimap/multimap.go:29-45 | the map {"k": [x]} has no empty set, but becomes {"k": []} after Remove("k", x) |
| MultiMapProps.CorrectedKeepsNoEmptySets | syncmultimap/multimap.go:41-44 | the corrected Remove never leaves a key holding an empty set, and keeps the key exactly when its set held something other than the single value removed |
| MultiMapProps.AddKeepsNoEmptySets | syncmultimap/multimap.go:71-84 | Add never leaves a key holding an empty set |
| MultiMapProps.CorrectedRemoveUndoesAdd | syncmultimap/multimap.go:41-44 | with the correction, Remove exactly undoes Add of a value the key did not hold, also for a key that was absent |
| MultiMapProps.RemoveAllDropsOnlyKey | syncmultimap/multimap_test.go:53-71 | after RemoveAll, ContainsKey is false and RangeKey visits nothing for that key; every other key keeps its presence and values |
| MultiMapProps.RangeKeyVisitsInOrder | syncmultimap/multimap.go:99-106 | RangeKey visits the key's values in insertion order, passing the key each time, and stops right after the first rejection; an absent key gives no visits |
| MultiMapProps.RangeKeyVisitsAll | syncmultimap/multimap_test.go:16-28 | with a callback that accepts everything, RangeKey visits every value of the key, in order |
| MultiMapProps.AddIsVisitedLast | syncmultimap/multimap.go:71-84 | after Add, an accepting RangeKey makes one more visit than before, and the last one is the added value |
| MultiMapProps.OfKeyAppend | syncmultimap/multimap.go:108-114 | selecting one key's visits distributes over concatenating visit lists |
| MultiMapProps.OfKeyUniform | syncmultimap/multimap.go:50-58 | a set's visits all carry its key, so selecting that key keeps them all and selecting any other key keeps none |
| MultiMapProps.RangeAllPerKey | syncmultimap/multimap.go:108-114 | for a callback whose answer depends only on the (key, value) pair, over an enumeration without repeats, the visits RangeAll makes with a key are exactly RangeKey's for it when the key is enumerated, and none otherwise, because a rejection ends only the set being ranged |
| MultiMapProps.RangeAllCoversEveryKey | syncmultimap/multimap.go:108-114 | for a callback whose answer depends only on the (key, value) pair, whatever order the keys are enumerated in, RangeAll makes for every key exactly RangeKey's visits, in the same order |
| MultiMapProps.RangeAllMembers | syncmultimap/multimap.go:108-114 | with an accepting callback, a (key, value) pair is visited exactly when the key is enumerated and its set holds the value |
| MultiMapProps.RangeAllVisitsEveryPair | syncmultimap/multimap_test.go:30-39 | with an accepting callback, RangeAll visits exactly the (key, value) pairs the map holds |
| SimpleFlight.LeadLock | singleflight/simple.go:15-21 | the key ends up holding the returned lock; a stored lock is returned and nothing changes; otherwise a fresh lock, distinct from every stored one, is stored; distinct keys keep distinct locks |
| SimpleFlight.RunLeader | singleflight/simple.go:45-60 | a return of fn, reserved errors included, is published unchanged; a panic is published as a nil value with a panicError wrapping the panic value; a Goexit is published as a nil value with errGoexit; Unlock runs exactly once, with the published record; the goroutine is still unwinding exactly when fn called Goexit |
| SimpleFlight.Decode | singleflight/simple.go:30-36 | a panicError makes the caller panic again with the wrapped value, errGoexit makes it exit its goroutine, and any other error returns the pair unchanged; DecodeEncodeRoundTrip relates it to the encoding |
| SimpleFlight.Do | singleflight/simple.go:28-63 | the caller uses the key's lead lock; it runs fn exactly when the lock makes it leader; a follower unlocks nothing and decodes the delivered record; a leader unlocks once with the record it published |
| SimpleFlightProps.LeadLockStable | singleflight/simple.go:15-21 | looking the same key up again returns the same lock and stores nothing |
| SimpleFlightProps.LeadLockSeparatesKeys | singleflight/simple.go:15-21 | two different keys get two different locks |
| SimpleFlightProps.FollowerReturnsDelivered | singleflight/simple.go:38-43 | a follower returns the delivered pair unchanged and never runs fn |
| SimpleFlightProps.LeaderReturnsFnResult | singleflight/simple.go:58-62 | a leader whose fn returns an ordinary pair publishes exactly that pair, unlocks once and returns it |
| SimpleFlightProps.PanicFansOut | singleflight/simple.go:30-33 | a panic in fn is published as a panicError with a nil value, and the leader and every follower given that record panic again with it |
| SimpleFlightProps.GoexitFansOut | singleflight/simple.go:33-35 | fn calling Goexit is published as errGoexit, and the leader and every follower given that record exit their goroutines |
| SimpleFlightProps.BatchAgrees | singleflight/simple.go:28-63 | whatever fn did, a follower given the leader's record ends the same way as the leader |
| SimpleFlightProps.DecodeEncodeRoundTrip | singleflight/simple.go:30-59 | decoding the published record reproduces what fn did exactly when fn did not itself return a panicError or errGoexit as its error |
| SimpleFlightProps.EveryCallerReproducesFn | singleflight/simple.go:28-63 | when fn does not return one of those two reserved errors, the leader and every follower end as a direct call of fn would: the same return, a panic with the same value, or Goexit |

## Left out

- Goroutines, the mutex and the WaitGroup are not modelled as concurrency. Each critical section is one atomic transition, and interleavings are sequences of transitions. A blocking receive is `Receive` returning no value.
- The `fn` callbacks are not run. For `SimpleFlight`, whether `fn` returned, panicked or called Goexit is a parameter; for `SingleFlight`, only the (val, err) that `fn` returned is.
- SingleFlight.Complete: `doCall` has no `recover`. A panic in `fn` ends the program. A Goexit in `fn` skips the completion, so no channel of that call is ever sent to: every caller attached to that call blocks forever, and later callers attach and block too until Forget removes the key, after which a new caller starts a fresh call. Both faults are modelled only as Complete never being taken for that call. The fan-out of a panic or a Goexit to every caller holds only for `SimpleFlight`.
- SingleFlight.Decrement: `atomic.AddInt64` wraps around at 64 bits; the model uses unbounded integers. The counter starts at the number of callers, so wrap-around needs about 2^63 decrements.
- SingleFlight.Deliver: the order in which results are sent is not observable once every channel has a buffer of one, so the model only states each channel's contents.
- `Group.Do` is DoChan followed by Receive. There is no separate member for it; AllCallersGetOneResult states its end-to-end promise.
- The sending goroutine that `go g.doCall` starts is the Complete transition. The moment `fn` runs, before Complete, is not a separate state.
- lock/leadlock.go is not part of this model. `LeadLock.Lock` is an oracle answering "leader" or the batch's record, and the batching itself (which callers join which batch) is not modelled.
- The definitions of `panicError`, `newPanicError` and `errGoexit` are not part of this model. A panicError is identified with the value it wraps; its stack trace is not modelled.
- SimpleFlight.Do: a re-panic is stated with the recovered value, while the source panics with the `*panicError` pointer, so the leader and all followers panic with the same object.
- A `panic(nil)` in fn is treated as a panic. This follows the recover semantics of Go 1.21 and later; older Go versions would read it as Goexit.
- The order in which `sync.Map.Range` enumerates keys is a parameter of `MultiMap.RangeAll` (any enumeration without repeats).
- Range callbacks are functions of the (key, value) pair alone. A Go `MultiMapRangeFn` is a closure whose answer can depend on the calls it has already seen (a counter, a limit); such callbacks are not modelled.
- MultiMapProps.RangeAllPerKey: holds only for callbacks that depend on the (key, value) pair alone; a callback that counts its calls can reject in RangeAll where a fresh one would accept in RangeKey, so the per-key visits then differ.
- MultiMapProps.RangeAllCoversEveryKey: holds only for callbacks that depend on the (key, value) pair alone, for the same reason as MultiMapProps.RangeAllPerKey.
- Concurrent Add/Remove/RemoveAll on the same key are not modelled. This includes the race the re-`Store` in Add guards against and aliasing of the `values` slice by `append`.
- Values are compared with Dafny equality. A Go `==` on incomparable interface values would panic, and that panic is not modelled.
- `Use`, the v2 package, the semaphore and syncmap packages are not part of this model.
- Two notes on what `SimpleSingleFlight.Do` does, which the model follows:
  - After a Goexit in fn, every caller of `SimpleSingleFlight.Do` calls Goexit too, rather than returning quietly.
  - After a panic in fn, every caller re-panics with the same value, and the leader's record carries a nil value.

## Findings

| source | as written | input that shows it | evidently intended | confidence | as-written member | corrected member |
|---|---|---|---|---|---|---|
| syncmultimap/multimap.go:29-45 | the removal loop returns as soon as it cuts out a match, so the "if the set is now empty" check only runs when nothing was removed | map {"k": [x]}, then Remove("k", x): the key stays, holding an empty set, and ContainsKey("k") is still true | a set the removal leaves empty is dropped from the map, so Remove undoes Add | medium, not executed | MultiMapProps.AsWrittenLeavesEmptySet | MultiMap.RemoveCorrected |

The as-written behaviour is `MultiMap.Remove`, and `MultiMapProps.RemovingLastValueKeepsKey` shows that removing the last value keeps the key. The corrected `MultiMap.RemoveCorrected` keeps the invariant that no key holds an empty set (`MultiMapProps.CorrectedKeepsNoEmptySets`) and exactly undoes Add (`MultiMapProps.CorrectedRemoveUndoesAdd`). The other Remove lemmas describe the source's own Remove, because that is what callers of the package observe.

=== FILE: multimap.dfy ===
/**
 The multi-valued map of syncmultimap/multimap.go. The concurrent `sync.Map`
 and the per-set read/write locks only guard sequential list logic, so the
 map is a value `map<string, seq<V>>`: a key is present exactly when the
 `sync.Map` holds a `MultiMapSet` for it, and the sequence is that set's
 `values` in order. A range callback is a pure predicate on (key, value);
 ranging returns the visits it makes, in order.
 */
module MultiMap {

  type MultiMap<V> = map<string, seq<V>>

  datatype Visit<V> = Visit(key: string, value: V)

  /** The first position of `v` in `s`, or |s| when it does not occur. */
  function FirstIndex<V(==)>(s: seq<V>, v: V): (i: nat)
    ensures i <= |s|
    ensures i < |s| ==> s[i] == v
    ensures forall j :: 0 <= j < i ==> s[j] != v
    ensures i == |s| <==> v !in s
  {
    if s == [] then 0
    else if s[0] == v then 0
    else 1 + FirstIndex(s[1..], v)
  }

  // ---------------------------------------------------------------------
  // MultiMapSet

  /** `MultiMapSet.Add`: appends `v`. */
  function SetAdd<V>(s: seq<V>, v: V): (s': seq<V>)
    ensures |s'| == |s| + 1 && s'[..|s|] == s && s'[|s|] == v
  {
    s + [v]
  }

  /** The outcome of `MultiMapSet.Remove`: the remaining values, and whether
      the set asked its map to drop its key (the `RemoveAll` at the end). */
  datatype SetRemoval<V> = SetRemoval(values: seq<V>, dropKey: bool)

  /** What `MultiMapSet.Remove` does: the first element equal to `v` is cut
      out; only when there is no such element does the set look at its
      length, and an empty set then asks for its key to be dropped. */
  function SetRemoved<V(==)>(s: seq<V>, v: V): (r: SetRemoval<V>)
    ensures |r.values| == if v in s then |s| - 1 else |s|
    ensures r.dropKey <==> s == []
  {
    var i := FirstIndex(s, v);
    if i < |s| then SetRemoval(s[..i] + s[i + 1..], false) else SetRemoval(s, |s| == 0)
  }

  /** The removal takes out one occurrence of `v`, the first, keeping the
      rest in order; the key is dropped only when `v` is absent and the set
      was already empty. */
  lemma SetRemovedShape<V>(s: seq<V>, v: V)
    ensures v in s ==> SetRemoved(s, v) == SetRemoval(s[..FirstIndex(s, v)] + s[FirstIndex(s, v) + 1..], false)
    ensures v !in s ==> SetRemoved(s, v) == SetRemoval(s, |s| == 0)
    ensures multiset(SetRemoved(s, v).values) == multiset(s) - multiset{v}
  {
    if v in s {
      SetRemovedFound(s, v);
    } else {
      MultisetMinusAbsent(s, v);
    }
  }

  lemma SetRemovedFound<V>(s: seq<V>, v: V)
    requires v in s
    ensures multiset(SetRemoved(s, v).values) == multiset(s) - multiset{v}
  {
    var i := FirstIndex(s, v);
    var cut := s[..i] + s[i + 1..];
    assert SetRemoved(s, v).values == cut;
    MultisetCut(s, i);
  }

  /** Cutting position i out of a sequence takes one s[i] out of its
      multiset. */
  lemma MultisetCut<V>(s: seq<V>, i: nat)
    requires i < |s|
    ensures multiset(s[..i] + s[i + 1..]) == multiset(s) - multiset{s[i]}
  {
    assert s == s[..i] + [s[i]] + s[i + 1..];
  }

  lemma MultisetMinusAbsent<V>(s: seq<V>, v: V)
    requires v !in s
    ensures multiset(s) - multiset{v} == multiset(s)
  {
    assert v !in multiset(s);
  }

  /** `MultiMapSet.Remove` as the source writes it: a scan that returns as
      soon as it has cut out a match, followed by the emptiness check. */
  method SetRemove<V(==)>(s: seq<V>, v: V) returns (r: SetRemoval<V>)
    ensures r == SetRemoved(s, v)
  {
    var i := 0;
    while i < |s|
      invariant 0 <= i <= |s|
      invariant forall j :: 0 <= j < i ==> s[j] != v
    {
      if s[i] == v {
        assert FirstIndex(s, v) == i;
        return SetRemoval(s[..i] + s[i + 1..], false);
      }
      i := i + 1;
    }
    return SetRemoval(s, |s| == 0);
  }

  /** What `MultiMapSet.Range` visits: the values in order, each with the
      set's key, up to and including the first one the callback rejects. */
  function RangePrefix<V>(key: string, s: seq<V>, fn: (string, V) -> bool): (visits: seq<Visit<V>>)
    ensures |visits| <= |s|
    ensures s != [] ==> |visits| >= 1 && visits[0] == Visit(key, s[0])
  {
    if s == [] then []
    else if !fn(key, s[0]) then [Visit(key, s[0])]
    else [Visit(key, s[0])] + RangePrefix(key, s[1..], fn)
  }

  /** The visits are a prefix of the values, each paired with the key; every
      visit but the last was accepted; and the ranging ends early only right
      after a rejection. */
  lemma {:induction false} RangePrefixShape<V>(key: string, s: seq<V>, fn: (string, V) -> bool)
    ensures var visits := RangePrefix(key, s, fn);
            && |visits| <= |s|
            && (forall j :: 0 <= j < |visits| ==> visits[j] == Visit(key, s[j]))
            && (forall j :: 0 <= j < |visits| - 1 ==> fn(key, s[j]))
            && (|visits| < |s| ==> |visits| > 0 && !fn(key, s[|visits| - 1]))
            && ((forall j :: 0 <= j < |s| ==> fn(key, s[j])) <==> |visits| == |s| && (|s| == 0 || fn(key, s[|s| - 1])))
  {
    if s != [] && fn(key, s[0]) {
      RangePrefixShape(key, s[1..], fn);
      assert forall j :: 0 < j < |s| ==> s[j] == s[1..][j - 1];
    }
  }

  lemma RangePrefixUnfold<V>(key: string, s: seq<V>, fn: (string, V) -> bool)
    requires s != []
    ensures RangePrefix(key, s, fn) ==
      [Visit(key, s[0])] + if fn(key, s[0]) then RangePrefix(key, s[1..], fn) else []
  {
  }

  /** `MultiMapSet.Range` as the source writes it: a loop that calls the
      callback on each value and returns at the first rejection. */
  method SetRange<V>(key: string, s: seq<V>, fn: (string, V) -> bool) returns (visits: seq<Visit<V>>)
    ensures visits == RangePrefix(key, s, fn)
  {
    visits := [];
    var i := 0;
    while i < |s|
      invariant 0 <= i <= |s|
      invariant RangePrefix(key, s, fn) == visits + RangePrefix(key, s[i..], fn)
    {
      var rest := s[i..];
      RangePrefixUnfold(key, rest, fn);
      assert rest[0] == s[i] && rest[1..] == s[i + 1..];
      visits := visits + [Visit(key, s[i])];
      if !fn(key, s[i]) {
        assert RangePrefix(key, rest, fn) == [Visit(key, s[i])];
        return;
      }
      assert RangePrefix(key, rest, fn) == [Visit(key, s[i])] + RangePrefix(key, s[i + 1..], fn);
      i := i + 1;
    }
    assert s[i..] == [];
  }

  // ---------------------------------------------------------------------
  // MultiMap

  function Empty<V>(): MultiMap<V>
  {
    map[]
  }

  /** `MultiMap.ContainsKey`. */
  predicate ContainsKey<V>(mm: MultiMap<V>, key: string): (b: bool)
    ensures b <==> key in mm
    ensures !b ==> Values(mm, key) == []
  {
    key in mm
  }

  /** The values held for `key`; none when the key is absent. */
  function Values<V>(mm: MultiMap<V>, key: string): seq<V>
  {
    if key in mm then mm[key] else []
  }

  /** `MultiMap.Add`: loads or stores a fresh empty set, appends `v`, and
      stores the set again. */
  function Add<V>(mm: MultiMap<V>, key: string, v: V): (mm': MultiMap<V>)
    ensures ContainsKey(mm', key)
    ensures mm'[key] == Values(mm, key) + [v]
    ensures mm'.Keys == mm.Keys + {key}
    ensures forall k :: k in mm && k != key ==> mm'[k] == mm[k]
  {
    mm[key := SetAdd(Values(mm, key), v)]
  }

  /** `MultiMap.RemoveAll`: deletes the key's set. */
  function RemoveAll<V>(mm: MultiMap<V>, key: string): (mm': MultiMap<V>)
    ensures !ContainsKey(mm', key)
    ensures mm'.Keys == mm.Keys - {key}
    ensures forall k :: k in mm' ==> mm'[k] == mm[k]
  {
    mm - {key}
  }

  /** `MultiMap.Remove`: nothing when the key is absent; otherwise the set's
      Remove, whose request to drop the key goes to RemoveAll. */
  function Remove<V(==)>(mm: MultiMap<V>, key: string, v: V): (mm': MultiMap<V>)
    ensures key !in mm ==> mm' == mm
    ensures forall k :: k != key ==> (k in mm' <==> k in mm) && (k in mm ==> mm'[k] == mm[k])
  {
    if key !in mm then mm
    else
      var r := SetRemoved(mm[key], v);
      if r.dropKey then RemoveAll(mm, key) else mm[key := r.values]
  }

  /** Remove with the emptiness check made after the cut, which is what the
      comment before that check describes: a set the removal leaves empty
      takes its key with it. */
  function RemoveCorrected<V(==)>(mm: MultiMap<V>, key: string, v: V): (mm': MultiMap<V>)
    ensures key !in mm ==> mm' == mm
    ensures forall k :: k != key ==> (k in mm' <==> k in mm) && (k in mm ==> mm'[k] == mm[k])
  {
    if key !in mm then mm
    else
      var r := SetRemoved(mm[key], v);
      if r.values == [] then RemoveAll(mm, key) else mm[key := r.values]
  }

  /** No key holds an empty set. */
  ghost predicate NoEmptySets<V>(mm: MultiMap<V>)
  {
    forall k :: k in mm ==> mm[k] != []
  }

  /** `MultiMap.RangeKey`: the key's set's Range, or no visits at all. */
  function RangeKey<V>(mm: MultiMap<V>, key: string, fn: (string, V) -> bool): (visits: seq<Visit<V>>)
    ensures |visits| <= |Values(mm, key)|
    ensures forall j :: 0 <= j < |visits| ==> visits[j] == Visit(key, Values(mm, key)[j])
    ensures !ContainsKey(mm, key) ==> visits == []
  {
    if key in mm then
      RangePrefixShape(key, mm[key], fn);
      RangePrefix(key, mm[key], fn)
    else []
  }

  /** `MultiMap.RangeAll` in the order `keys` the `sync.Map` happens to use:
      each set is ranged in turn, and the outer callback always returns true,
      so a rejection ends only the current set. */
  function RangeAll<V>(mm: MultiMap<V>, keys: seq<string>, fn: (string, V) -> bool): (visits: seq<Visit<V>>)
    requires forall i :: 0 <= i < |keys| ==> keys[i] in mm
    ensures forall j :: 0 <= j < |visits| ==> visits[j].key in keys && visits[j].value in mm[visits[j].key]
  {
    if keys == [] then []
    else
      var head := RangePrefix(keys[0], mm[keys[0]], fn);
      RangePrefixShape(keys[0], mm[keys[0]], fn);
      var rest := RangeAll(mm, keys[1..], fn);
      assert forall j :: 0 <= j < |rest| ==> rest[j].key in keys[1..] && rest[j].key in keys;
      head + rest
  }

  /** The visits among `vs` made with key `k`. */
  function OfKey<V>(vs: seq<Visit<V>>, k: string): seq<Visit<V>>
  {
    if vs == [] then []
    else (if vs[0].key == k then [vs[0]] else []) + OfKey(vs[1..], k)
  }

  /** An enumeration of the keys of `mm`: every key once. */
  ghost predicate Enumerates<V>(mm: MultiMap<V>, keys: seq<string>)
  {
    && (forall i :: 0 <= i < |keys| ==> keys[i] in mm)
    && (forall k :: k in mm ==> k in keys)
    && (forall i, j :: 0 <= i < j < |keys| ==> keys[i] != keys[j])
  }
}

=== FILE: multimap_props.dfy ===
/**
 What the multimap of syncmultimap/multimap.go promises its users, and the
 one surprising corner of Remove.
 */
module MultiMapProps {
  import opened MultiMap

  /** A new multimap holds no key: ContainsKey is false, RangeKey visits
      nothing, and there is no empty set. */
  lemma EmptyHoldsNothing<V>(key: string, fn: (string, V) -> bool)
    ensures !ContainsKey(Empty<V>(), key)
    ensures RangeKey(Empty<V>(), key, fn) == []
    ensures NoEmptySets(Empty<V>())
  {
  }

  /** Remove of an absent key, or of a value the key's non-empty set does
      not hold, changes nothing. */
  lemma RemoveMissingIsNoOp<V>(mm: MultiMap<V>, key: string, v: V)
    requires key !in mm || (v !in mm[key] && mm[key] != [])
    ensures Remove(mm, key, v) == mm
  {
  }

  /** Remove of a value the key's set holds cuts out its first occurrence
      only: the key stays, one element fewer, everything else in order, and
      other keys are untouched. */
  lemma RemoveCutsFirstOccurrence<V>(mm: MultiMap<V>, key: string, v: V)
    requires key in mm && v in mm[key]
    ensures var mm' := Remove(mm, key, v);
            var i := FirstIndex(mm[key], v);
            && ContainsKey(mm', key)
            && mm'[key] == mm[key][..i] + mm[key][i + 1..]
            && multiset(mm'[key]) == multiset(mm[key]) - multiset{v}
            && mm'.Keys == mm.Keys
  {
    SetRemovedShape(mm[key], v);
  }

  /** Removing the only value leaves the key present with no values: the
      scan returns as soon as it cuts, so the emptiness check never runs. */
  lemma RemovingLastValueKeepsKey<V>(mm: MultiMap<V>, key: string, v: V)
    requires key in mm && mm[key] == [v]
    ensures ContainsKey(Remove(mm, key, v), key)
    ensures Remove(mm, key, v) == mm[key := []]
  {
    assert SetRemoved([v], v).values == [];
  }

  /** The key is dropped only by a Remove on an already-empty set, whatever
      the value. */
  lemma RemoveFromEmptySetDropsKey<V>(mm: MultiMap<V>, key: string, v: V)
    requires key in mm && mm[key] == []
    ensures !ContainsKey(Remove(mm, key, v), key)
    ensures Remove(mm, key, v) == RemoveAll(mm, key)
  {
  }

  /** Remove drops a key exactly when the key's set was already empty. */
  lemma RemoveDropsKeyIffEmpty<V>(mm: MultiMap<V>, key: string, v: V)
    requires key in mm
    ensures !ContainsKey(Remove(mm, key, v), key) <==> mm[key] == []
  {
  }

  /** Removing a value just appended to a set that did not hold it gives
      the set back. */
  lemma SetRemoveAppended<V>(s: seq<V>, v: V)
    requires v !in s
    ensures SetRemoved(s + [v], v) == SetRemoval(s, false)
  {
    var s' := s + [v];
    var i := FirstIndex(s', v);
    assert i == |s| by {
      assert s'[|s|] == v;
      assert forall j :: 0 <= j < |s| ==> s'[j] == s[j];
    }
    assert s'[..|s|] == s && s'[|s| + 1..] == [];
  }

  /** Add followed by Remove of a value the key did not hold gives back the
      key's old values; a key that was absent is left present but empty. */
  lemma AddThenRemove<V>(mm: MultiMap<V>, key: string, v: V)
    requires v !in Values(mm, key)
    ensures Remove(Add(mm, key, v), key, v) == mm[key := Values(mm, key)]
    ensures key in mm ==> Remove(Add(mm, key, v), key, v) == mm
  {
    var a := Add(mm, key, v);
    SetRemoveAppended(Values(mm, key), v);
    assert Remove(a, key, v) == a[key := Values(mm, key)];
  }

  // ---------------------------------------------------------------------
  // The emptiness check of MultiMapSet.Remove, as written and as meant.

  /** As written, Remove can leave a key holding an empty set: the map
      ["k" := [x]] becomes ["k" := []] when x is removed. */
  lemma AsWrittenLeavesEmptySet<V>(x: V)
    ensures NoEmptySets(map["k" := [x]])
    ensures !NoEmptySets(Remove(map["k" := [x]], "k", x))
  {
    RemovingLastValueKeepsKey(map["k" := [x]], "k", x);
  }

  /** The corrected Remove drops a key exactly when the removal leaves its
      set empty, so no key ever holds an empty set... */
  lemma CorrectedKeepsNoEmptySets<V>(mm: MultiMap<V>, key: string, v: V)
    requires NoEmptySets(mm)
    ensures NoEmptySets(RemoveCorrected(mm, key, v))
    ensures key in mm ==> (ContainsKey(RemoveCorrected(mm, key, v), key) <==> multiset(mm[key]) != multiset{v})
  {
    if key in mm {
      var s := mm[key];
      if multiset(s) == multiset{v} {
        assert v in multiset(s);
        assert |s| == |multiset(s)| == 1;
      }
    }
  }

  /** ...and Add keeps that invariant too. */
  lemma AddKeepsNoEmptySets<V>(mm: MultiMap<V>, key: string, v: V)
    requires NoEmptySets(mm)
    ensures NoEmptySets(Add(mm, key, v))
  {
  }

  /** With the correction, Remove undoes Add of a value the key did not
      hold, also for a key that was absent. */
  lemma CorrectedRemoveUndoesAdd<V>(mm: MultiMap<V>, key: string, v: V)
    requires v !in Values(mm, key)
    ensures RemoveCorrected(Add(mm, key, v), key, v) == if Values(mm, key) == [] then mm - {key} else mm[key := Values(mm, key)]
    ensures NoEmptySets(mm) ==> RemoveCorrected(Add(mm, key, v), key, v) == mm
  {
    var s := Values(mm, key);
    var a := mm[key := s + [v]];
    assert Add(mm, key, v) == a;
    if s == [] {
      assert s + [v] == [v];
      CorrectedRemoveOfAppendedToEmpty(mm, key, v);
    } else {
      CorrectedRemoveOfAppended(a, key, s, v);
      assert a[key := s] == mm[key := s];
    }
    if NoEmptySets(mm) {
      if s == [] {
        assert key !in mm;
        assert mm - {key} == mm;
      } else {
        assert mm[key := s] == mm;
      }
    }
  }

  lemma CorrectedRemoveOfAppendedToEmpty<V>(mm: MultiMap<V>, key: string, v: V)
    ensures RemoveCorrected(mm[key := [v]], key, v) == mm - {key}
  {
    SetRemoveAppended([], v);
    assert [] + [v] == [v];
    var a := mm[key := [v]];
    assert a[key] == [v];
    assert RemoveCorrected(a, key, v) == a - {key};
  }

  lemma CorrectedRemoveOfAppended<V>(a: MultiMap<V>, key: string, s: seq<V>, v: V)
    requires key in a && a[key] == s + [v]
    requires v !in s && s != []
    ensures RemoveCorrected(a, key, v) == a[key := s]
  {
    SetRemoveAppended(s, v);
  }

  /** RemoveAll drops only its key: ContainsKey turns false, RangeKey visits
      nothing, and every other key keeps its values. */
  lemma RemoveAllDropsOnlyKey<V>(mm: MultiMap<V>, key: string, fn: (string, V) -> bool)
    ensures !ContainsKey(RemoveAll(mm, key), key)
    ensures RangeKey(RemoveAll(mm, key), key, fn) == []
    ensures forall k :: k != key ==> (ContainsKey(RemoveAll(mm, key), k) <==> ContainsKey(mm, k))
    ensures forall k :: k != key ==> Values(RemoveAll(mm, key), k) == Values(mm, k)
  {
  }

  /** RangeKey visits the key's values in insertion order, passing the key
      each time, and stops right after the first value the callback rejects;
      an absent key gives no visits. */
  lemma RangeKeyVisitsInOrder<V>(mm: MultiMap<V>, key: string, fn: (string, V) -> bool)
    ensures var visits := RangeKey(mm, key, fn);
            && (key !in mm ==> visits == [])
            && |visits| <= |Values(mm, key)|
            && (forall j :: 0 <= j < |visits| ==> visits[j] == Visit(key, Values(mm, key)[j]))
            && (forall j :: 0 <= j < |visits| - 1 ==> fn(key, Values(mm, key)[j]))
            && (|visits| < |Values(mm, key)| ==> |visits| > 0 && !fn(key, Values(mm, key)[|visits| - 1]))
  {
    assert RangeKey(mm, key, fn) == RangePrefix(key, Values(mm, key), fn);
    RangePrefixShape(key, Values(mm, key), fn);
  }

  /** With a callback that accepts everything, RangeKey visits every value
      of the key, in insertion order. */
  lemma RangeKeyVisitsAll<V>(mm: MultiMap<V>, key: string, fn: (string, V) -> bool)
    requires forall k, v :: fn(k, v)
    ensures |RangeKey(mm, key, fn)| == |Values(mm, key)|
    ensures forall j :: 0 <= j < |Values(mm, key)| ==> RangeKey(mm, key, fn)[j] == Visit(key, Values(mm, key)[j])
  {
    RangePrefixShape(key, Values(mm, key), fn);
  }

  /** Add then RangeKey: the added value is the last thing visited when the
      callback accepts everything. */
  lemma AddIsVisitedLast<V>(mm: MultiMap<V>, key: string, v: V, fn: (string, V) -> bool)
    requires forall k, x :: fn(k, x)
    ensures var vs := RangeKey(Add(mm, key, v), key, fn);
            |vs| == |Values(mm, key)| + 1 && vs[|vs| - 1] == Visit(key, v)
  {
    RangeKeyVisitsAll(Add(mm, key, v), key, fn);
  }

  // ---------------------------------------------------------------------
  // RangeAll

  lemma {:induction false} OfKeyAppend<V>(a: seq<Visit<V>>, b: seq<Visit<V>>, k: string)
    ensures OfKey(a + b, k) == OfKey(a, k) + OfKey(b, k)
  {
    if a == [] {
      assert a + b == b;
    } else {
      var head := if a[0].key == k then [a[0]] else [];
      assert (a + b)[0] == a[0];
      assert (a + b)[1..] == a[1..] + b;
      assert OfKey(a + b, k) == head + OfKey(a[1..] + b, k);
      OfKeyAppend(a[1..], b, k);
      assert OfKey(a, k) == head + OfKey(a[1..], k);
    }
  }

  /** Visits that all carry key `k` are kept whole by OfKey(_, k), and
      dropped whole by OfKey(_, k') for another key. */
  lemma {:induction false} OfKeyUniform<V>(vs: seq<Visit<V>>, k: string, k': string)
    requires forall j :: 0 <= j < |vs| ==> vs[j].key == k
    ensures OfKey(vs, k) == vs
    ensures k' != k ==> OfKey(vs, k') == []
  {
    if vs != [] {
      OfKeyUniform(vs[1..], k, k');
    }
  }

  /** The visits RangeAll makes with key `k` are exactly RangeKey's for `k`
      when `k` comes up once in the enumeration, and none when it does not:
      a rejection ends only the set being ranged. */
  lemma {:induction false} RangeAllPerKey<V>(mm: MultiMap<V>, keys: seq<string>, fn: (string, V) -> bool, k: string)
    requires forall i :: 0 <= i < |keys| ==> keys[i] in mm
    requires forall i, j :: 0 <= i < j < |keys| ==> keys[i] != keys[j]
    ensures OfKey(RangeAll(mm, keys, fn), k) == if k in keys then RangeKey(mm, k, fn) else []
  {
    if keys != [] {
      var head := RangePrefix(keys[0], mm[keys[0]], fn);
      RangePrefixShape(keys[0], mm[keys[0]], fn);
      OfKeyAppend(head, RangeAll(mm, keys[1..], fn), k);
      OfKeyUniform(head, keys[0], k);
      RangeAllPerKey(mm, keys[1..], fn, k);
      if k == keys[0] {
        assert k !in keys[1..] by {
          forall i | 0 <= i < |keys[1..]| ensures keys[1..][i] != k {
            assert keys[1..][i] == keys[i + 1];
          }
        }
      }
    }
  }

  /** Over any enumeration of the keys, RangeAll visits, for every key of
      the map, exactly what RangeKey visits for it, in the same order; and
      it visits nothing under a key the map does not hold. */
  lemma RangeAllCoversEveryKey<V>(mm: MultiMap<V>, keys: seq<string>, fn: (string, V) -> bool)
    requires Enumerates(mm, keys)
    ensures forall k :: OfKey(RangeAll(mm, keys, fn), k) == RangeKey(mm, k, fn)
  {
    forall k
      ensures OfKey(RangeAll(mm, keys, fn), k) == RangeKey(mm, k, fn)
    {
      RangeAllPerKey(mm, keys, fn, k);
    }
  }

  lemma {:induction false} RangeAllMembers<V>(mm: MultiMap<V>, keys: seq<string>, fn: (string, V) -> bool, k: string, v: V)
    requires forall i :: 0 <= i < |keys| ==> keys[i] in mm
    requires forall k, x :: fn(k, x)
    ensures Visit(k, v) in RangeAll(mm, keys, fn) <==> k in keys && v in mm[k]
  {
    if keys != [] {
      RangeAllMembers(mm, keys[1..], fn, k, v);
      var s := mm[keys[0]];
      var head := RangePrefix(keys[0], s, fn);
      RangePrefixShape(keys[0], s, fn);
      assert |head| == |s|;
      if k == keys[0] && v in s {
        var j :| 0 <= j < |s| && s[j] == v;
        assert head[j] == Visit(k, v);
      }
      assert keys == [keys[0]] + keys[1..];
    }
  }

  /** With a callback that accepts everything, RangeAll visits exactly the
      (key, value) pairs the map holds. */
  lemma RangeAllVisitsEveryPair<V>(mm: MultiMap<V>, keys: seq<string>, fn: (string, V) -> bool)
    requires Enumerates(mm, keys)
    requires forall k, x :: fn(k, x)
    ensures forall k, v :: Visit(k, v) in RangeAll(mm, keys, fn) <==> k in mm && v in mm[k]
  {
    forall k, v
      ensures Visit(k, v) in RangeAll(mm, keys, fn) <==> k in mm && v in mm[k]
    {
      RangeAllMembers(mm, keys, fn, k, v);
    }
  }
}

=== FILE: options.dfy ===
/** The optional value used across the model: Go's `nil` pointer or interface,
    a lookup that found nothing, or a channel receive that would block. */
module Options {

  datatype Option<+T> = None | Some(value: T)
}

=== FILE: simple.dfy ===
/**
 The lock-based single-flight of singleflight/simple.go. Each key has a leader
 lock kept in a `sync.Map`; a caller that the lock elects leader runs `fn`,
 packs what happened into a `result` record and hands it to `Unlock`; every
 other caller of that batch is given the record by `Lock`. Each caller, leader
 or follower, decodes the record in the deferred block of `Do` and reproduces
 the outcome: returns, panics again, or exits its goroutine.

 The lock itself is an oracle: `Lock()` answers `None` (the caller leads) or
 `Some(record)` (the record the batch's leader published). What `fn` did is
 an `Outcome`, with Go's `recover` and `runtime.Goexit` as its cases.
 */
module SimpleFlight {
  import opened Options

  type LockId = nat

  /** The `sync.Map` of leader locks, plus how many locks `NewLeadLock` has
      made, which names the next one. */
  datatype Registry = Registry(locks: map<string, LockId>, created: nat)

  /** Distinct keys hold distinct locks, all of them already made. */
  ghost predicate RegistryValid(reg: Registry)
  {
    && (forall k :: k in reg.locks ==> reg.locks[k] < reg.created)
    && (forall k, k' :: k in reg.locks && k' in reg.locks && k != k' ==> reg.locks[k] != reg.locks[k'])
  }

  /** `leadLock`: the lock stored for `key`, else a new lock, stored. */
  function LeadLock(reg: Registry, key: string): (p: (Registry, LockId))
    ensures key in p.0.locks && p.0.locks[key] == p.1
    ensures key in reg.locks ==> p.0 == reg
    ensures key !in reg.locks ==>
      && p.0.locks == reg.locks[key := p.1]
      && p.0.created == reg.created + 1
    ensures RegistryValid(reg) ==> RegistryValid(p.0)
    ensures RegistryValid(reg) && key !in reg.locks ==> p.1 !in reg.locks.Values
  {
    if key in reg.locks then (reg, reg.locks[key])
    else
      var l := reg.created;
      (Registry(reg.locks[key := l], reg.created + 1), l)
  }

  /** A Go `error` as far as Do is concerned: nil, an error of `fn`'s own,
      the `*panicError` that wraps a recovered panic value, or `errGoexit`. */
  datatype Err<E, P> = NilErr | Plain(e: E) | PanicErr(value: P) | ErrGoexit

  /** What `fn` did: returned (v, err), panicked with a value, or called
      `runtime.Goexit`. A nil interface value is `None`. */
  datatype Outcome<V, E, P> =
    | Returned(v: Option<V>, err: Err<E, P>)
    | Panicked(value: P)
    | Exited

  /** The `result` record a leader publishes. */
  datatype Record<V, E, P> = Record(v: Option<V>, err: Err<E, P>)

  /** What a caller of Do does in the end. */
  datatype Behaviour<V, E, P> =
    | Return(v: Option<V>, err: Err<E, P>)
    | RePanic(value: P)
    | Goexit

  /** The leader's run of `fn` inside the inner function: the record it
      publishes, every `Unlock` it made, in order, and whether the goroutine
      is still unwinding from Goexit when the inner function is left. */
  datatype LeaderRun<V, E, P> = LeaderRun(rec: Record<V, E, P>, unlocked: seq<Record<V, E, P>>, unwinding: bool)

  /** Encoding (the leader's inner function and its deferred block). When
      `fn` returns, its pair is stored. Otherwise nothing was assigned, so
      `v` stays nil, and the deferred block stores either the recovered panic
      wrapped in a panicError or errGoexit; Unlock is in that deferred block
      and so runs in every case. */
  function RunLeader<V, E, P>(o: Outcome<V, E, P>): (run: LeaderRun<V, E, P>)
    ensures |run.unlocked| == 1 && run.unlocked[0] == run.rec
    ensures run.unwinding <==> o.Exited?
    ensures !o.Returned? ==> run.rec.v == None
    ensures o.Returned? ==> run.rec == Record(o.v, o.err)
    ensures o.Panicked? ==> run.rec == Record(None, PanicErr(o.value))
    ensures o.Exited? ==> run.rec == Record(None, ErrGoexit)
  {
    var getBack := o.Returned?;
    var res := if o.Returned? then Record(o.v, o.err) else Record(None, NilErr);
    var res' :=
      if getBack then res
      else if o.Panicked? then res.(err := PanicErr(o.value))
      else res.(err := ErrGoexit);
    LeaderRun(res', [res'], o.Exited?)
  }

  /** Decoding (Do's deferred block) once Do would return `rec`'s pair. */
  function Decode<V, E, P>(rec: Record<V, E, P>): (b: Behaviour<V, E, P>)
    ensures b.RePanic? <==> rec.err.PanicErr?
    ensures b.RePanic? ==> b.value == rec.err.value
    ensures b.Goexit? <==> rec.err == ErrGoexit
    ensures b.Return? ==> b.v == rec.v && b.err == rec.err
  {
    if rec.err.PanicErr? then RePanic(rec.err.value)
    else if rec.err == ErrGoexit then Goexit
    else Return(rec.v, rec.err)
  }

  /** One caller of Do: the registry afterwards, the lock it used, whether it
      ran `fn`, the Unlocks it made, and what it did in the end. */
  datatype DoCall<V, E, P> = DoCall(
    registry: Registry,
    lock: LockId,
    ranFn: bool,
    unlocked: seq<Record<V, E, P>>,
    behaviour: Behaviour<V, E, P>)

  /** `Do`: `granted` is what the key's lock answered, `fn` what `fn` would
      do if run. A follower returns the delivered pair, decoded; the leader
      runs `fn` once, unlocks with its record, and decodes the same record,
      except that a goroutine already unwinding from Goexit keeps exiting. */
  function Do<V, E, P>(reg: Registry, key: string, granted: Option<Record<V, E, P>>, fn: Outcome<V, E, P>): (c: DoCall<V, E, P>)
    ensures (c.registry, c.lock) == LeadLock(reg, key)
    ensures c.ranFn <==> granted.None?
    ensures granted.Some? ==> c.unlocked == [] && c.behaviour == Decode(granted.value)
    ensures granted.None? ==> |c.unlocked| == 1 && c.unlocked[0] == RunLeader(fn).rec
  {
    var (reg', ll) := LeadLock(reg, key);
    match granted
    case Some(res) =>
      DoCall(reg', ll, false, [], Decode(res))
    case None =>
      var run := RunLeader(fn);
      var b := if run.unwinding then Goexit else Decode(run.rec);
      DoCall(reg', ll, true, run.unlocked, b)
  }

  /** The behaviour an outcome of `fn` calls for, had `fn` been called
      directly. */
  function Reproduce<V, E, P>(o: Outcome<V, E, P>): Behaviour<V, E, P>
  {
    match o
    case Returned(v, err) => Return(v, err)
    case Panicked(x) => RePanic(x)
    case Exited => Goexit
  }

  /** An error `fn` can return of its own that Decode reads as a fault. */
  predicate Reserved<E, P>(err: Err<E, P>)
  {
    err.PanicErr? || err.ErrGoexit?
  }
}

=== FILE: simple_props.dfy ===
/**
 What the lock-based single-flight of singleflight/simple.go guarantees:
 one lock per key, `fn` run only by the leader, `Unlock` exactly once, and
 every caller of a batch reproducing the leader's outcome of `fn`.
 */
module SimpleFlightProps {
  import opened Options
  import opened SimpleFlight

  /** Looking a key up again yields the same lock and stores nothing. */
  lemma LeadLockStable(reg: Registry, key: string)
    ensures var (reg1, l1) := LeadLock(reg, key);
            LeadLock(reg1, key) == (reg1, l1)
  {
  }

  /** Two keys never share a lock. */
  lemma LeadLockSeparatesKeys(reg: Registry, k1: string, k2: string)
    requires RegistryValid(reg) && k1 != k2
    ensures var (reg1, l1) := LeadLock(reg, k1);
            var (reg2, l2) := LeadLock(reg1, k2);
            l1 != l2 && RegistryValid(reg2) && reg2.locks[k1] == l1
  {
  }

  /** A follower hands back the delivered pair and never runs `fn`. */
  lemma FollowerReturnsDelivered<V, E, P>(reg: Registry, key: string, rec: Record<V, E, P>, fn: Outcome<V, E, P>)
    requires !Reserved(rec.err)
    ensures var c := Do(reg, key, Some(rec), fn);
            !c.ranFn && c.unlocked == [] && c.behaviour == Return(rec.v, rec.err)
  {
  }

  /** A leader whose `fn` returns an ordinary pair publishes exactly that
      pair, unlocks once, and returns it. */
  lemma LeaderReturnsFnResult<V, E, P>(reg: Registry, key: string, v: Option<V>, err: Err<E, P>)
    requires !Reserved(err)
    ensures var c := Do(reg, key, None, Returned(v, err));
            c.ranFn && c.unlocked == [Record(v, err)] && c.behaviour == Return(v, err)
  {
  }

  /** A panic in `fn` is published as a panicError with a nil value, and the
      leader and every follower given that record panic again with it. */
  lemma PanicFansOut<V, E, P>(reg: Registry, key: string, x: P, reg': Registry, fn': Outcome<V, E, P>)
    ensures var leader := Do(reg, key, None, Panicked(x));
            var follower := Do(reg', key, Some(leader.unlocked[0]), fn');
            && leader.unlocked == [Record(None, PanicErr(x))]
            && leader.behaviour == RePanic(x)
            && follower.behaviour == RePanic(x)
  {
  }

  /** `fn` calling Goexit is published as errGoexit, and the leader and
      every follower given that record exit their goroutines. */
  lemma GoexitFansOut<V, E, P>(reg: Registry, key: string, reg': Registry, fn': Outcome<V, E, P>)
    ensures var leader := Do(reg, key, None, Exited);
            var follower := Do(reg', key, Some(leader.unlocked[0]), fn');
            && leader.unlocked == [Record(None, ErrGoexit)]
            && leader.behaviour == Goexit
            && follower.behaviour == Goexit
  {
  }

  /** Whatever `fn` did, a follower given the leader's record behaves as the
      leader does. */
  lemma BatchAgrees<V, E, P>(reg: Registry, key: string, fn: Outcome<V, E, P>, reg': Registry, fn': Outcome<V, E, P>)
    ensures var leader := Do(reg, key, None, fn);
            var follower := Do(reg', key, Some(leader.unlocked[0]), fn');
            follower.behaviour == leader.behaviour
  {
  }

  /** Decoding reproduces what `fn` did exactly when `fn` did not return an
      error of the two kinds the record uses for faults; such an error is
      misread as a panic or a Goexit. */
  lemma DecodeEncodeRoundTrip<V, E, P>(o: Outcome<V, E, P>)
    ensures Decode(RunLeader(o).rec) == Reproduce(o) <==> !(o.Returned? && Reserved(o.err))
  {
  }

  /** Every caller of a batch, leader or follower, does what `fn` did when
      `fn` did not return a reserved error. */
  lemma EveryCallerReproducesFn<V, E, P>(reg: Registry, key: string, fn: Outcome<V, E, P>, reg': Registry, fn': Outcome<V, E, P>)
    requires !(fn.Returned? && Reserved(fn.err))
    ensures var leader := Do(reg, key, None, fn);
            var follower := Do(reg', key, Some(leader.unlocked[0]), fn');
            leader.behaviour == Reproduce(fn) && follower.behaviour == Reproduce(fn)
  {
  }
}

=== FILE: singleflight.dfy ===
/**
 The duplicate-call suppression group of singleflight/singleflight.go, as a
 state machine. Every mutation of the group happens inside a critical section
 of the group's mutex, so each critical section is one atomic transition here:

 - `DoChan`   the attach-or-create section (DoChan),
 - `Complete` the section `doCall` enters after `fn` has returned,
 - `Forget`   the whole of Forget,
 - `Receive`  a caller taking its result from its size-1 channel (Do),
 - `Decrement` the atomic decrement of a call's shared reference counter.

 Running `fn` between creation and completion is an environment step: its
 value and error are the arguments of `Complete`. Calls and channels are
 identified by their index in `calls` and `boxes`, which play the role of
 the heap cells `*call` and `chan Result` point to.
 */
module SingleFlight {
  import opened Options

  type Key = string
  type CallId = nat
  type ReceiverId = nat

  /** Whether `fn` is still running for a call, or what it returned. */
  datatype Progress<V, E> = Running | Finished(val: V, err: E)

  /** A `call` record. `key` is the key the spawned `doCall` was given. */
  datatype Call<V, E> = Call(
    key: Key,
    progress: Progress<V, E>,
    forgotten: bool,
    refCount: int,
    chans: seq<ReceiverId>)

  /** `refShared`: the shared flag plus a pointer to the call's counter. */
  datatype RefShared = RefShared(shared: bool, counter: CallId)

  /** What a caller receives on its channel. */
  datatype Result<V, E> = Result(val: V, err: E, refShared: RefShared)

  /** The buffered channel of one caller: the call it was registered with,
      the messages waiting in it, and whether the caller has taken one. */
  datatype Mailbox<V, E> = Mailbox(owner: CallId, msgs: seq<Result<V, E>>, received: bool)

  /** The group: the key table `m` plus the heap of calls and channels. */
  datatype Group<V, E> = Group(
    m: map<Key, CallId>,
    calls: seq<Call<V, E>>,
    boxes: seq<Mailbox<V, E>>)

  /** What `DoChan` hands back: the new state, the caller's channel, the call
      the channel was registered with, and whether a `doCall` was spawned. */
  datatype Attach<V, E> = Attach(group: Group<V, E>, ch: ReceiverId, call: CallId, started: bool)

  /** A zero `Group`: its map is nil, which Go reads as empty. */
  function EmptyGroup<V, E>(): Group<V, E>
  {
    Group(map[], [], [])
  }

  // ---------------------------------------------------------------------
  // Shape of the heap: every pointer in the state points at something.

  ghost predicate WellFormed<V, E>(g: Group<V, E>)
  {
    && (forall k :: k in g.m ==> g.m[k] < |g.calls|)
    && (forall c, j :: 0 <= c < |g.calls| && 0 <= j < |g.calls[c].chans| ==> g.calls[c].chans[j] < |g.boxes|)
    && (forall r :: 0 <= r < |g.boxes| ==> g.boxes[r].owner < |g.calls|)
  }

  predicate Distinct<T(==)>(s: seq<T>)
  {
    forall i, j :: 0 <= i < j < |s| ==> s[i] != s[j]
  }

  // ---------------------------------------------------------------------
  // The invariants the group keeps.

  /** A call reachable from the table is for that key, still running and
      not forgotten. */
  ghost predicate TableLive<V, E>(g: Group<V, E>)
    requires WellFormed(g)
  {
    forall k :: k in g.m ==>
      && g.calls[g.m[k]].key == k
      && !g.calls[g.m[k]].forgotten
      && g.calls[g.m[k]].progress.Running?
  }

  /** Conversely, a call still running and not forgotten is the table's
      entry for its key; with TableLive, each key has at most one such call. */
  ghost predicate LiveInTable<V, E>(g: Group<V, E>)
  {
    forall c :: 0 <= c < |g.calls| && g.calls[c].progress.Running? && !g.calls[c].forgotten ==>
      g.calls[c].key in g.m && g.m[g.calls[c].key] == c
  }

  /** While a call is in flight its counter is the number of its receivers. */
  ghost predicate CountsMatch<V, E>(g: Group<V, E>)
  {
    forall c :: 0 <= c < |g.calls| && g.calls[c].progress.Running? ==>
      g.calls[c].refCount == |g.calls[c].chans|
  }

  /** Each channel is registered with exactly one call, once. */
  ghost predicate ChannelsOwned<V, E>(g: Group<V, E>)
    requires WellFormed(g)
  {
    && (forall c, j :: 0 <= c < |g.calls| && 0 <= j < |g.calls[c].chans| ==>
          g.boxes[g.calls[c].chans[j]].owner == c)
    && (forall c :: 0 <= c < |g.calls| ==> Distinct(g.calls[c].chans))
    && (forall r :: 0 <= r < |g.boxes| ==> r in g.calls[g.boxes[r].owner].chans)
  }

  /** The message a finished call delivers. */
  function Delivered<V, E>(c: Call<V, E>, id: CallId): Result<V, E>
    requires c.progress.Finished?
  {
    Result(c.progress.val, c.progress.err, RefShared(|c.chans| > 1, id))
  }

  /** A channel of a running call is empty and untouched; a channel of a
      finished call holds that call's result until its caller takes it. */
  ghost predicate MailboxesAgree<V, E>(g: Group<V, E>)
    requires WellFormed(g)
  {
    forall r :: 0 <= r < |g.boxes| ==>
      var b := g.boxes[r];
      var c := g.calls[b.owner];
      if c.progress.Running? then b.msgs == [] && !b.received
      else if b.received then b.msgs == []
      else b.msgs == [Delivered(c, b.owner)]
  }

  ghost predicate Valid<V, E>(g: Group<V, E>)
  {
    && WellFormed(g)
    && TableLive(g)
    && LiveInTable(g)
    && CountsMatch(g)
    && ChannelsOwned(g)
    && MailboxesAgree(g)
  }

  lemma EmptyGroupValid<V, E>()
    ensures Valid(EmptyGroup<V, E>())
  {
  }

  // ---------------------------------------------------------------------
  // Transitions.

  /** DoChan's critical section. With a call in flight for `key` the caller
      only attaches to it; otherwise it creates a call that starts `fn`. */
  function DoChan<V, E>(g: Group<V, E>, key: Key): (a: Attach<V, E>)
    requires WellFormed(g)
    ensures WellFormed(a.group)
    ensures a.ch == |g.boxes| && |a.group.boxes| == |g.boxes| + 1
    ensures a.group.boxes[..|g.boxes|] == g.boxes
    ensures a.group.boxes[a.ch] == Mailbox(a.call, [], false)
    ensures key in g.m ==>
      && !a.started
      && a.call == g.m[key]
      && a.group.m == g.m
      && |a.group.calls| == |g.calls|
      && a.group.calls[a.call].refCount == g.calls[a.call].refCount + 1
      && a.group.calls[a.call].chans == g.calls[a.call].chans + [a.ch]
      && a.group.calls[a.call].progress == g.calls[a.call].progress
      && a.group.calls[a.call].forgotten == g.calls[a.call].forgotten
      && a.group.calls[a.call].key == g.calls[a.call].key
      && (forall c :: 0 <= c < |g.calls| && c != a.call ==> a.group.calls[c] == g.calls[c])
    ensures key !in g.m ==>
      && a.started
      && a.call == |g.calls|
      && a.group.m == g.m[key := a.call]
      && a.group.calls == g.calls + [Call(key, Running, false, 1, [a.ch])]
  {
    var ch := |g.boxes|;
    if key in g.m then
      var id := g.m[key];
      var c := g.calls[id];
      var c' := c.(refCount := c.refCount + 1, chans := c.chans + [ch]);
      Attach(Group(g.m, g.calls[id := c'], g.boxes + [Mailbox(id, [], false)]), ch, id, false)
    else
      var id := |g.calls|;
      var c := Call(key, Running, false, 1, [ch]);
      Attach(Group(g.m[key := id], g.calls + [c], g.boxes + [Mailbox(id, [], false)]), ch, id, true)
  }

  /** Sends `res` on every channel of `chans`, in order. */
  function Deliver<V, E>(boxes: seq<Mailbox<V, E>>, chans: seq<ReceiverId>, res: Result<V, E>): (boxes': seq<Mailbox<V, E>>)
    requires forall j :: 0 <= j < |chans| ==> chans[j] < |boxes|
    ensures |boxes'| == |boxes|
    ensures forall r :: 0 <= r < |boxes| ==>
      boxes'[r].owner == boxes[r].owner && boxes'[r].received == boxes[r].received
    ensures forall r :: 0 <= r < |boxes| && r !in chans ==> boxes'[r] == boxes[r]
    ensures Distinct(chans) ==>
      forall r :: 0 <= r < |boxes| && r in chans ==> boxes'[r].msgs == boxes[r].msgs + [res]
    decreases |chans|
  {
    if chans == [] then boxes
    else
      var r := chans[0];
      var rest := Deliver(boxes, chans[1..], res);
      assert forall x :: x in chans[1..] ==> x in chans;
      rest[r := rest[r].(msgs := rest[r].msgs + [res])]
  }

  /** doCall's critical section, once `fn` has returned `(val, err)`: the key
      is retired unless the call was forgotten, and every registered channel
      receives the same result. */
  function Complete<V, E>(g: Group<V, E>, id: CallId, val: V, err: E): (g': Group<V, E>)
    requires WellFormed(g)
    requires id < |g.calls| && g.calls[id].progress.Running?
    ensures WellFormed(g')
    ensures g'.m == if g.calls[id].forgotten then g.m else g.m - {g.calls[id].key}
    ensures |g'.calls| == |g.calls| && |g'.boxes| == |g.boxes|
    ensures g'.calls[id] == g.calls[id].(progress := Finished(val, err))
    ensures forall c :: 0 <= c < |g.calls| && c != id ==> g'.calls[c] == g.calls[c]
  {
    var c := g.calls[id];
    var m' := if !c.forgotten then g.m - {c.key} else g.m;
    var shared := RefShared(c.refCount > 1, id);
    var boxes' := Deliver(g.boxes, c.chans, Result(val, err, shared));
    Group(m', g.calls[id := c.(progress := Finished(val, err))], boxes')
  }

  /** Forget: the live call for `key`, if any, is marked forgotten, and the
      key is deleted from the table (a no-op when it is absent). */
  function Forget<V, E>(g: Group<V, E>, key: Key): (g': Group<V, E>)
    requires WellFormed(g)
    ensures WellFormed(g')
    ensures |g'.calls| == |g.calls| && g'.boxes == g.boxes
    ensures key !in g'.m && g'.m == g.m - {key}
    ensures key !in g.m ==> g' == g
    ensures key in g.m ==>
      && g'.calls[g.m[key]].forgotten
      && g'.calls[g.m[key]] == g.calls[g.m[key]].(forgotten := true)
    ensures forall c :: 0 <= c < |g.calls| && (key !in g.m || c != g.m[key]) ==> g'.calls[c] == g.calls[c]
  {
    var calls' := if key in g.m then g.calls[g.m[key] := g.calls[g.m[key]].(forgotten := true)] else g.calls;
    Group(g.m - {key}, calls', g.boxes)
  }

  /** A caller taking the value from its channel (`<-ch` in Do). `None` means
      the receive would block: nothing has been sent yet. */
  function Receive<V, E>(g: Group<V, E>, ch: ReceiverId): (p: (Group<V, E>, Option<Result<V, E>>))
    requires ch < |g.boxes|
    ensures g.boxes[ch].msgs == [] ==> p.0 == g && p.1 == None
    ensures g.boxes[ch].msgs != [] ==>
      && p.1 == Some(g.boxes[ch].msgs[0])
      && p.0.m == g.m && p.0.calls == g.calls
      && |p.0.boxes| == |g.boxes|
      && p.0.boxes[ch] == g.boxes[ch].(msgs := g.boxes[ch].msgs[1..], received := true)
      && (forall r :: 0 <= r < |g.boxes| && r != ch ==> p.0.boxes[r] == g.boxes[r])
  {
    var b := g.boxes[ch];
    if b.msgs == [] then (g, None)
    else (g.(boxes := g.boxes[ch := b.(msgs := b.msgs[1..], received := true)]), Some(b.msgs[0]))
  }

  /** `refShared.Shared`. */
  function Shared(rs: RefShared): (b: bool)
    ensures b <==> rs.shared
  {
    rs.shared
  }

  /** `refShared.Decrement`: lowers the counter of the call `rs` points to
      and returns its new value. */
  function Decrement<V, E>(g: Group<V, E>, rs: RefShared): (p: (Group<V, E>, int))
    requires rs.counter < |g.calls|
    ensures p.1 == g.calls[rs.counter].refCount - 1
    ensures p.0.m == g.m && p.0.boxes == g.boxes && |p.0.calls| == |g.calls|
    ensures p.0.calls[rs.counter] == g.calls[rs.counter].(refCount := p.1)
    ensures forall c :: 0 <= c < |g.calls| && c != rs.counter ==> p.0.calls[c] == g.calls[c]
  {
    var c := g.calls[rs.counter];
    var n := c.refCount - 1;
    (g.(calls := g.calls[rs.counter := c.(refCount := n)]), n)
  }
}

=== FILE: singleflight_props.dfy ===
/**
 What the group of singleflight/singleflight.go guarantees: every transition
 keeps `SingleFlight.Valid`, and the behaviours the package documents and
 tests (duplicate suppression, one identical result per caller, Forget
 starting a fresh execution without disturbing the newer call, the shared
 reference counter) follow from the transitions.
 */
module SingleFlightProps {
  import opened Options
  import opened SingleFlight

  // ---------------------------------------------------------------------
  // Every critical section preserves the invariant.

  lemma DoChanPreservesValid<V, E>(g: Group<V, E>, key: Key)
    requires Valid(g)
    ensures Valid(DoChan(g, key).group)
  {
    if key in g.m {
      AttachPreservesValid(g, key);
    } else {
      CreatePreservesValid(g, key);
    }
  }

  /** DoChan on a key with a live call. */
  lemma AttachPreservesValid<V, E>(g: Group<V, E>, key: Key)
    requires Valid(g) && key in g.m
    ensures Valid(DoChan(g, key).group)
  {
    var g' := DoChan(g, key).group;
    AttachShape(g, key);
    AttachKeepsTable(g, key, g');
    AttachKeepsChannels(g, key, g');
    AttachKeepsMailboxes(g, key, g');
  }

  /** The attaching DoChan, written out. */
  lemma AttachShape<V, E>(g: Group<V, E>, key: Key)
    requires WellFormed(g) && key in g.m
    ensures var c := g.calls[g.m[key]];
            DoChan(g, key).group == Group(
              g.m,
              g.calls[g.m[key] := c.(refCount := c.refCount + 1, chans := c.chans + [|g.boxes|])],
              g.boxes + [Mailbox(g.m[key], [], false)])
  {
  }

  lemma AttachKeepsTable<V, E>(g: Group<V, E>, key: Key, g': Group<V, E>)
    requires Valid(g) && key in g.m
    requires var c := g.calls[g.m[key]];
             g' == Group(g.m, g.calls[g.m[key] := c.(refCount := c.refCount + 1, chans := c.chans + [|g.boxes|])],
                         g.boxes + [Mailbox(g.m[key], [], false)])
    ensures WellFormed(g') && TableLive(g') && LiveInTable(g') && CountsMatch(g')
  {
  }

  lemma AttachKeepsChannels<V, E>(g: Group<V, E>, key: Key, g': Group<V, E>)
    requires Valid(g) && key in g.m
    requires var c := g.calls[g.m[key]];
             g' == Group(g.m, g.calls[g.m[key] := c.(refCount := c.refCount + 1, chans := c.chans + [|g.boxes|])],
                         g.boxes + [Mailbox(g.m[key], [], false)])
    ensures WellFormed(g') && ChannelsOwned(g')
  {
    var id, ch := g.m[key], |g.boxes|;
    var c := g.calls[id];
    var c' := g'.calls[id];
    assert forall r :: 0 <= r < |g.boxes| ==> g'.boxes[r] == g.boxes[r];
    forall x, j | 0 <= x < |g'.calls| && 0 <= j < |g'.calls[x].chans|
      ensures g'.boxes[g'.calls[x].chans[j]].owner == x
    {
      if x != id || j < |c.chans| {
        assert g'.calls[x].chans[j] == g.calls[x].chans[j];
      }
    }
    forall j | 0 <= j < |c.chans|
      ensures c.chans[j] != ch
    {
    }
    assert Distinct(c'.chans);
    forall r | 0 <= r < |g'.boxes|
      ensures r in g'.calls[g'.boxes[r].owner].chans
    {
      if r < |g.boxes| {
        var o := g.boxes[r].owner;
        assert r in g.calls[o].chans;
        assert g.calls[o].chans <= g'.calls[o].chans;
      } else {
        assert c'.chans[|c.chans|] == r;
      }
    }
  }

  lemma AttachKeepsMailboxes<V, E>(g: Group<V, E>, key: Key, g': Group<V, E>)
    requires Valid(g) && key in g.m
    requires var c := g.calls[g.m[key]];
             g' == Group(g.m, g.calls[g.m[key] := c.(refCount := c.refCount + 1, chans := c.chans + [|g.boxes|])],
                         g.boxes + [Mailbox(g.m[key], [], false)])
    ensures WellFormed(g') && MailboxesAgree(g')
  {
    assert forall r :: 0 <= r < |g.boxes| ==> g'.boxes[r] == g.boxes[r];
  }

  /** DoChan on a key without a live call. */
  lemma CreatePreservesValid<V, E>(g: Group<V, E>, key: Key)
    requires Valid(g) && key !in g.m
    ensures Valid(DoChan(g, key).group)
  {
    var g' := DoChan(g, key).group;
    assert g' == Group(g.m[key := |g.calls|], g.calls + [Call(key, Running, false, 1, [|g.boxes|])],
                       g.boxes + [Mailbox(|g.calls|, [], false)]);
    CreateKeepsInvariants(g, key, g');
  }

  lemma CreateKeepsInvariants<V, E>(g: Group<V, E>, key: Key, g': Group<V, E>)
    requires Valid(g) && key !in g.m
    requires g' == Group(g.m[key := |g.calls|], g.calls + [Call(key, Running, false, 1, [|g.boxes|])],
                         g.boxes + [Mailbox(|g.calls|, [], false)])
    ensures Valid(g')
  {
    assert forall r :: 0 <= r < |g.boxes| ==> g'.boxes[r] == g.boxes[r];
    assert forall x :: 0 <= x < |g.calls| ==> g'.calls[x] == g.calls[x];
    CreateKeepsChannels(g, key, g');
  }

  lemma CreateKeepsChannels<V, E>(g: Group<V, E>, key: Key, g': Group<V, E>)
    requires Valid(g) && key !in g.m
    requires g' == Group(g.m[key := |g.calls|], g.calls + [Call(key, Running, false, 1, [|g.boxes|])],
                         g.boxes + [Mailbox(|g.calls|, [], false)])
    ensures WellFormed(g') && ChannelsOwned(g')
  {
    assert forall r :: 0 <= r < |g.boxes| ==> g'.boxes[r] == g.boxes[r];
    assert forall x :: 0 <= x < |g.calls| ==> g'.calls[x] == g.calls[x];
    forall r | 0 <= r < |g'.boxes|
      ensures r in g'.calls[g'.boxes[r].owner].chans
    {
      if r < |g.boxes| {
        assert r in g.calls[g.boxes[r].owner].chans;
      }
    }
  }

  lemma CompletePreservesValid<V, E>(g: Group<V, E>, id: CallId, val: V, err: E)
    requires Valid(g)
    requires id < |g.calls| && g.calls[id].progress.Running?
    ensures Valid(Complete(g, id, val, err))
  {
    CompleteKeepsTable(g, id, val, err);
    CompleteKeepsMailboxes(g, id, val, err);
  }

  lemma CompleteKeepsTable<V, E>(g: Group<V, E>, id: CallId, val: V, err: E)
    requires Valid(g)
    requires id < |g.calls| && g.calls[id].progress.Running?
    ensures var g' := Complete(g, id, val, err);
            TableLive(g') && LiveInTable(g') && CountsMatch(g') && ChannelsOwned(g')
  {
    var g' := Complete(g, id, val, err);
    forall k | k in g'.m
      ensures g'.m[k] != id
    {
      assert k in g.m;
    }
  }

  lemma CompleteKeepsMailboxes<V, E>(g: Group<V, E>, id: CallId, val: V, err: E)
    requires Valid(g)
    requires id < |g.calls| && g.calls[id].progress.Running?
    ensures MailboxesAgree(Complete(g, id, val, err))
  {
    var g' := Complete(g, id, val, err);
    var c := g.calls[id];
    var res := Result(val, err, RefShared(c.refCount > 1, id));
    assert g'.boxes == Deliver(g.boxes, c.chans, res);
    assert Distinct(c.chans);
    forall r | 0 <= r < |g'.boxes|
      ensures var b := g'.boxes[r];
              var cc := g'.calls[b.owner];
              if cc.progress.Running? then b.msgs == [] && !b.received
              else if b.received then b.msgs == []
              else b.msgs == [Delivered(cc, b.owner)]
    {
      var b := g.boxes[r];
      if b.owner == id {
        assert r in c.chans;
        assert g'.boxes[r].msgs == b.msgs + [res];
        assert Delivered(g'.calls[id], id) == res;
      } else {
        assert r !in c.chans;
        assert g'.boxes[r] == b;
      }
    }
  }

  lemma ForgetPreservesValid<V, E>(g: Group<V, E>, key: Key)
    requires Valid(g)
    ensures Valid(Forget(g, key))
  {
    var g' := Forget(g, key);
    forall k | k in g'.m
      ensures g'.calls[g'.m[k]] == g.calls[g.m[k]]
    {
    }
  }

  lemma ReceivePreservesValid<V, E>(g: Group<V, E>, ch: ReceiverId)
    requires Valid(g) && ch < |g.boxes|
    ensures Valid(Receive(g, ch).0)
  {
  }

  /** A counter is only reachable through a delivered result, so only a
      finished call's counter is ever decremented. */
  lemma DecrementPreservesValid<V, E>(g: Group<V, E>, rs: RefShared)
    requires Valid(g) && rs.counter < |g.calls|
    requires g.calls[rs.counter].progress.Finished?
    ensures Valid(Decrement(g, rs).0)
  {
  }

  // ---------------------------------------------------------------------
  // Delivery: one identical result per registered caller.

  /** Completion puts exactly one message in each channel registered with
      the call, the same message for all of them, whose shared flag says
      whether more than one caller was attached; other channels are
      untouched. */
  lemma CompleteDeliversOnce<V, E>(g: Group<V, E>, id: CallId, val: V, err: E)
    requires Valid(g)
    requires id < |g.calls| && g.calls[id].progress.Running?
    ensures var g' := Complete(g, id, val, err);
            forall r :: 0 <= r < |g.boxes| ==>
              if r in g.calls[id].chans
              then g'.boxes[r].msgs == [Result(val, err, RefShared(g.calls[id].refCount > 1, id))]
              else g'.boxes[r] == g.boxes[r]
    ensures g.calls[id].refCount > 1 <==> |g.calls[id].chans| > 1
  {
    var c := g.calls[id];
    assert Distinct(c.chans);
    forall r | 0 <= r < |g.boxes| && r in c.chans
      ensures g.boxes[r].msgs == []
    {
      var j :| 0 <= j < |c.chans| && c.chans[j] == r;
      assert g.boxes[r].owner == id;
    }
  }

  /** Whatever a caller takes from its channel is the result of the call it
      was registered with: that call has finished, and the value, error and
      counter are that call's. After the one message, the channel is empty
      for good. */
  lemma ReceivedIsCallResult<V, E>(g: Group<V, E>, ch: ReceiverId)
    requires Valid(g) && ch < |g.boxes|
    ensures var (g', res) := Receive(g, ch);
            var c := g.calls[g.boxes[ch].owner];
            res.Some? ==>
              && c.progress.Finished?
              && res.value.val == c.progress.val
              && res.value.err == c.progress.err
              && res.value.refShared.counter == g.boxes[ch].owner
              && (Shared(res.value.refShared) <==> |c.chans| > 1)
              && Receive(g', ch).1 == None
    ensures g.boxes[ch].received ==> Receive(g, ch).1 == None
  {
  }

  // ---------------------------------------------------------------------
  // Duplicate suppression: n callers, one execution.

  /** `n` callers of DoChan for `key`, one after another. */
  function DoChanMany<V, E>(g: Group<V, E>, key: Key, n: nat): (p: (Group<V, E>, nat))
    requires WellFormed(g)
    ensures WellFormed(p.0)
    ensures |p.0.boxes| == |g.boxes| + n
    decreases n
  {
    if n == 0 then (g, 0)
    else
      var prev := DoChanMany(g, key, n - 1);
      var a := DoChan(prev.0, key);
      (a.group, prev.1 + if a.started then 1 else 0)
  }

  /** From a state with no call for `key`, n >= 1 callers start exactly one
      execution; it is the only call created, it is live for `key`, and the
      n new channels, in order, are all registered with it, its counter
      being n. */
  lemma {:induction false} DuplicatesSuppressed<V, E>(g: Group<V, E>, key: Key, n: nat)
    requires WellFormed(g) && key !in g.m && n >= 1
    ensures var p := DoChanMany(g, key, n);
            var id := |g.calls|;
            && p.1 == 1
            && |p.0.calls| == id + 1
            && key in p.0.m && p.0.m[key] == id
            && p.0.calls[id].refCount == n
            && p.0.calls[id].progress.Running?
            && |p.0.calls[id].chans| == n
            && (forall j :: 0 <= j < n ==> p.0.calls[id].chans[j] == |g.boxes| + j)
  {
    var id := |g.calls|;
    if n == 1 {
      FirstCallerCreates(g, key);
    } else {
      DuplicatesSuppressed(g, key, n - 1);
      var prev := DoChanMany(g, key, n - 1);
      AttachStep(prev.0, key, id, |g.boxes|, n - 1);
      assert DoChanMany(g, key, n) == (DoChan(prev.0, key).group, prev.1);
    }
  }

  lemma FirstCallerCreates<V, E>(g: Group<V, E>, key: Key)
    requires WellFormed(g) && key !in g.m
    ensures var p := DoChanMany(g, key, 1);
            var id := |g.calls|;
            && p.1 == 1
            && |p.0.calls| == id + 1
            && key in p.0.m && p.0.m[key] == id
            && p.0.calls[id] == Call(key, Running, false, 1, [|g.boxes|])
  {
    assert DoChanMany(g, key, 0) == (g, 0);
  }

  /** One more caller attaching to the call that has the first k channels
      after `base`. */
  lemma AttachStep<V, E>(g: Group<V, E>, key: Key, id: CallId, base: nat, k: nat)
    requires WellFormed(g) && key in g.m && g.m[key] == id
    requires |g.boxes| == base + k
    requires g.calls[id].refCount == k && g.calls[id].progress.Running?
    requires |g.calls[id].chans| == k && forall j :: 0 <= j < k ==> g.calls[id].chans[j] == base + j
    ensures var g' := DoChan(g, key).group;
            && !DoChan(g, key).started
            && |g'.calls| == |g.calls| && g'.m == g.m
            && g'.calls[id].refCount == k + 1 && g'.calls[id].progress.Running?
            && |g'.calls[id].chans| == k + 1
            && forall j :: 0 <= j < k + 1 ==> g'.calls[id].chans[j] == base + j
  {
    AttachShape(g, key);
  }

  lemma {:induction false} DoChanManyPreservesValid<V, E>(g: Group<V, E>, key: Key, n: nat)
    requires Valid(g)
    ensures Valid(DoChanMany(g, key, n).0)
  {
    if n > 0 {
      DoChanManyPreservesValid(g, key, n - 1);
      DoChanPreservesValid(DoChanMany(g, key, n - 1).0, key);
    }
  }

  /** The end-to-end promise of Do: n callers for one key, one execution,
      and when it returns (val, err) every one of the n channels holds the
      same single result, marked shared exactly when n > 1. */
  lemma AllCallersGetOneResult<V, E>(g: Group<V, E>, key: Key, n: nat, val: V, err: E)
    requires Valid(g) && key !in g.m && n >= 1
    ensures var (g1, started) := DoChanMany(g, key, n);
            var id := |g.calls|;
            && started == 1
            && id < |g1.calls| && g1.calls[id].progress.Running?
            && |g1.calls[id].chans| == n
            && (forall j :: 0 <= j < n ==> g1.calls[id].chans[j] == |g.boxes| + j)
            && var g2 := Complete(g1, id, val, err);
               forall ch :: ch in g1.calls[id].chans ==>
                 ch < |g2.boxes| && g2.boxes[ch].msgs == [Result(val, err, RefShared(n > 1, id))]
  {
    DuplicatesSuppressed(g, key, n);
    DoChanManyPreservesValid(g, key, n);
    var (g1, started) := DoChanMany(g, key, n);
    CompleteDeliversOnce(g1, |g.calls|, val, err);
  }

  // ---------------------------------------------------------------------
  // Forget.

  /** The scenario of TestForget. Call A is in flight for `key`; after
      Forget, a new DoChan starts a fresh call B although A is still
      running; A's completion leaves the table pointing at B; a third
      caller arriving during B attaches to B without starting anything and
      receives B's value. */
  lemma ForgetStartsFreshCall<V, E>(g: Group<V, E>, key: Key, v1: V, e1: E, v2: V, e2: E)
    requires Valid(g) && key in g.m
    ensures var callA := g.m[key];
            var second := DoChan(Forget(g, key), key);
            var afterA := Complete(second.group, callA, v1, e1);
            var third := DoChan(afterA, key);
            var afterB := Complete(third.group, second.call, v2, e2);
            && second.started && second.call != callA
            && second.group.calls[callA].progress.Running?
            && second.group.calls[callA].forgotten
            && afterA.m == second.group.m && afterA.m[key] == second.call
            && !third.started && third.call == second.call
            && Receive(afterB, third.ch).1 == Some(Result(v2, e2, RefShared(true, second.call)))
  {
    var callA := g.m[key];
    var g1 := Forget(g, key);
    ForgetPreservesValid(g, key);
    var second := DoChan(g1, key);
    DoChanPreservesValid(g1, key);
    var afterA := Complete(second.group, callA, v1, e1);
    CompletePreservesValid(second.group, callA, v1, e1);
    var third := DoChan(afterA, key);
    DoChanPreservesValid(afterA, key);
    assert third.group.calls[second.call].chans == [second.ch, third.ch];
    CompleteDeliversOnce(third.group, second.call, v2, e2);
    assert third.ch in third.group.calls[second.call].chans;
  }

  /** Completion of a forgotten call never touches the table, so whatever
      call now holds its key survives. */
  lemma ForgottenCompletionKeepsTable<V, E>(g: Group<V, E>, id: CallId, val: V, err: E)
    requires Valid(g)
    requires id < |g.calls| && g.calls[id].progress.Running? && g.calls[id].forgotten
    ensures Complete(g, id, val, err).m == g.m
    ensures forall k :: k in g.m ==> g.m[k] != id
  {
  }

  /** Each key has at most one call that is running and not forgotten. */
  lemma AtMostOneLiveCall<V, E>(g: Group<V, E>, c1: CallId, c2: CallId)
    requires Valid(g) && c1 < |g.calls| && c2 < |g.calls|
    requires g.calls[c1].progress.Running? && !g.calls[c1].forgotten
    requires g.calls[c2].progress.Running? && !g.calls[c2].forgotten
    requires g.calls[c1].key == g.calls[c2].key
    ensures c1 == c2
  {
  }

  /** Completing one call never deletes the table entry of another call
      that is still running and not forgotten. */
  lemma CompletionSparesLiveCalls<V, E>(g: Group<V, E>, id: CallId, val: V, err: E)
    requires Valid(g)
    requires id < |g.calls| && g.calls[id].progress.Running?
    ensures var g' := Complete(g, id, val, err);
            forall c :: 0 <= c < |g.calls| && c != id && g.calls[c].progress.Running? && !g.calls[c].forgotten ==>
              g.calls[c].key in g'.m && g'.m[g.calls[c].key] == c
  {
  }

  /** A call that was not forgotten is the table's entry for its key, and
      completion removes exactly that entry. */
  lemma CompletionRetiresOwnKey<V, E>(g: Group<V, E>, id: CallId, val: V, err: E)
    requires Valid(g)
    requires id < |g.calls| && g.calls[id].progress.Running? && !g.calls[id].forgotten
    ensures g.calls[id].key in g.m && g.m[g.calls[id].key] == id
    ensures var g' := Complete(g, id, val, err);
            g'.m.Keys == g.m.Keys - {g.calls[id].key}
            && forall k :: k in g'.m ==> g'.m[k] == g.m[k] && g'.m[k] != id
  {
  }

  // ---------------------------------------------------------------------
  // The shared counter.

  /** `k` successive Decrements through one refShared; returns the state and
      the value the last one returned (the counter itself when k == 0). */
  function DecrementMany<V, E>(g: Group<V, E>, rs: RefShared, k: nat): (p: (Group<V, E>, int))
    requires rs.counter < |g.calls|
    ensures |p.0.calls| == |g.calls|
    decreases k
  {
    if k == 0 then (g, g.calls[rs.counter].refCount)
    else
      var (g1, _) := DecrementMany(g, rs, k - 1);
      Decrement(g1, rs)
  }

  /** All results of a call share one counter: after k decrements through
      any of them the counter, and the last returned value, is refCount - k;
      nothing else in the group changes. */
  lemma {:induction false} DecrementCounts<V, E>(g: Group<V, E>, rs: RefShared, k: nat)
    requires rs.counter < |g.calls|
    ensures var (g', last) := DecrementMany(g, rs, k);
            && last == g.calls[rs.counter].refCount - k
            && g'.calls[rs.counter].refCount == last
            && g'.m == g.m && g'.boxes == g.boxes
            && (forall c :: 0 <= c < |g.calls| && c != rs.counter ==> g'.calls[c] == g.calls[c])
  {
    if k > 0 {
      DecrementCounts(g, rs, k - 1);
    }
  }
}
